=== FILE: README.md ===
# USS carrier tracker: a Dafny model of its classification and report logic

The trackers collect public, mostly mocked, information about US Navy aircraft
carriers. They decide which strategic region each carrier is heading toward.
They also filter news and deployment reports for the Middle East, and
assemble the results into reports. This project models the logic of that
work and proves what it promises. Network access, HTML scraping, map drawing
and file output are left out.

Modules, one per concern:

- `Compass` (`compass.dfy`): the eight-way direction arrow of a course.
- `Regions` (`regions.dfy`): the strategic-region table, region centres, the
  normalised bearing, the circular difference and the first-match classifier.
- `VesselPositions` (`positions.dfy`): the API-key fallback and the mock
  position table.
- `CarrierMap` (`carrier_map.dfy`): the `carriers_data` loop, marker colours
  and the `strategic_deployments` grouping.
- `NewsAnalysis` (`news.dfy`): scraper title keywords, link normalisation,
  in-place Middle East tagging of news items, the text summary and the
  fleet-status record.
- `Deployments` (`deployments.dfy`): the Middle East deployment filter, its
  sample data and the hull table.
- `Sequences`, `Text` and `Wrappers`: order-preserving filtering, ASCII
  lower-casing, substring search, slicing, decimal rendering, and `Option`.

Modelling choices:

- The great-circle bearing is floating-point trigonometry. It enters the
  model as a parameter `raw`, the value of `math.degrees(math.atan2(...))`.
  The `(bearing + 360) % 360` step that follows it is modelled exactly, with
  Python's floor-modulo. So the range [0, 360) of every bearing is proved,
  not assumed.
- Python's `int()` truncates toward zero and is modelled that way. Python's
  `%` with modulus 8 is never negative, and neither is Dafny's.
- The arrow glyphs are stored garbled in the source file. They are modelled
  as eight distinct tokens in the source's order, from `North` clockwise to
  `NorthWest`.
- News items are dictionaries that the analysis changes in place. The same
  objects then appear in several lists. So a news item is a class whose
  `region` and `relevance` fields are assigned. The fields the tracker never
  changes are constants.
- Deployment records are never changed, so they are values
  (`map<string, string>`).
- Latitudes, longitudes, courses and speeds are exact reals.
- Python truthiness of a number means "present and non-zero".

The model follows what the code does, including where it differs from what
a reader would expect:

- The code never rejects a course or coordinate outside its range. It
  classifies whatever it is given, so the model has no invalid-input error.
- A compass quantizer would be expected to wrap a negative course round, so
  that -45 gets the same arrow as 315. The code truncates
  `(course + 22.5) / 45` toward zero instead. So every course in
  (-67.5, 22.5), -45 included, gets the north arrow
  (`Compass.ArrowTruncatesNegativeCourses`).
- A position without a timestamp is not skipped. For a carrier that is
  otherwise placed on the map, the popup slices `position['timestamp'][:19]`,
  which raises on `None`; nothing catches it, so the whole map and its report
  are abandoned (`CarrierMap.CreateCarriersData`, `CarrierMap.GenerateMapReport`).

## Model

| member | source | states |
|---|---|---|
| Compass.DirectionArrow | visual_tracker.py:94-98 | for a course in [0,360), the k-th arrow is returned exactly when the course lies in sector k |
| Compass.ArrowIndex | visual_tracker.py:97 | the index is in 0..7 for every course, so the lookup in the eight-symbol list never fails |
| Compass.ArrowSector | visual_tracker.py:94-98 | for a course in [0,360), the index is k exactly when the course lies in [45k-22.5, 45k+22.5); index 0 wraps round north |
| Compass.ArrowOfSector | visual_tracker.py:94-98 | a course in sector k gets the k-th arrow of the list |
| Compass.ArrowFullTurn | visual_tracker.py:97 | adding 360 to a non-negative course does not change its arrow |
| Compass.ArrowTruncatesNegativeCourses | visual_tracker.py:97 | because int() truncates, every course in (-67.5, 22.5) gets the north arrow |
| Compass.ArrowSamples | visual_tracker.py:96-98 | 0 and 360 give north, 45 north-east, 315 north-west, -45 north |
| Compass.Trunc | visual_tracker.py:97 | int() of a float lies within 1 of it, on the side of zero |
| Regions.Center | visual_tracker.py:105-107 | a region centre is equidistant from north and south and from east and west, so it lies inside the box |
| Regions.StrategicCenters | visual_tracker.py:29-45 | the centres are (26, 45), (-7.5, 70) and (25, 125) |
| Regions.Mod360 | visual_tracker.py:119 | Python's float % 360 lies in [0,360) and differs from its argument by whole turns |
| Regions.Bearing | visual_tracker.py:110-119 | the normalised bearing lies in [0,360) whatever the trigonometry returns |
| Regions.BearingNormalisation | visual_tracker.py:114-119 | an atan2 angle in [-180,180] is kept when non-negative and gets a full turn added when negative |
| Regions.Abs | visual_tracker.py:122 | abs() is non-negative and equals its argument or its negation |
| Regions.CircularDiff | visual_tracker.py:122-123 | the circular difference is one of the two ways round, abs(course - bearing) or 360 minus it, and at most both; it is at most 180, and non-negative when the angles are within a turn |
| Regions.HeadingToward | visual_tracker.py:122-123 | a vessel heads toward a region exactly when the course and the bearing to the centre differ by at most 45 degrees one way round or the other |
| Regions.CircularDiffSymmetric | visual_tracker.py:122-123 | the circular difference does not depend on which angle is the course |
| Regions.FirstMatch | visual_tracker.py:104-124 | the index found is a region the vessel heads toward, with none before it; none is found exactly when no region qualifies |
| Regions.Classify | visual_tracker.py:104-126 | the result is "Other Operations" or the name of a region in the list |
| Regions.HeadingRegion | visual_tracker.py:100-126 | the result is one of "Middle East", "Indian Ocean", "East Asia/Western Pacific", "Other Operations" |
| Regions.ClassifyFirstMatch | visual_tracker.py:104-124 | first match wins: a qualifying region with none before it names the result, whatever follows |
| Regions.ClassifyTieGoesToFirst | visual_tracker.py:104-124 | when two regions both qualify, the earlier one in the list is reported |
| Regions.HeadingRegionOtherIff | visual_tracker.py:104-126 | "Other Operations" is returned exactly when no strategic region passes the heading test |
| Regions.HeadingRegionNames | visual_tracker.py:29-45 | each region name is returned exactly when that region is the first to qualify, in the order middle_east, indian_ocean, east_asia |
| Regions.ToleranceInclusive | visual_tracker.py:123 | a bearing exactly 45 degrees off the course, either way round, still counts |
| VesselPositions.EffectiveApiKey | visual_tracker.py:15 | a missing or empty key, and only those or the placeholder itself, leads to the placeholder |
| VesselPositions.GetVesselPosition | visual_tracker.py:47-92 | the position carries the requested MMSI; with the placeholder key there is one exactly for the mock MMSIs, stamped with the current time; otherwise there is one exactly when the service answers, and it is the service's record (latitude, longitude, course, speed, timestamp) under the requested MMSI |
| VesselPositions.MockPositionOfKnown | visual_tracker.py:49-69 | with the placeholder key, a known MMSI reports its table latitude, longitude and course at 18.5 knots, stamped with the current time |
| VesselPositions.MockPositionOfUnknown | visual_tracker.py:60-71 | with the placeholder key, any other MMSI has no position |
| VesselPositions.MockTableShape | visual_tracker.py:51-58 | the mock table has six entries, none at latitude or longitude zero |
| CarrierMap.OrZero | visual_tracker.py:154-155 | a missing or zero course or speed becomes 0, any other value is kept |
| CarrierMap.EntryFor | visual_tracker.py:152-158 | an entry is produced exactly when the position exists and its latitude and longitude are truthy (0.0 is skipped); it carries the carrier's name, the position's latitude and longitude, the course and speed with a falsy value read as 0, and the region classified from them |
| CarrierMap.CarriersData | visual_tracker.py:149-209 | there are at most as many entries as carriers; every entry has a non-zero latitude and longitude and the name of a carrier of the table |
| CarrierMap.Crashes | visual_tracker.py:152-179 | a position makes the loop raise only when it is placed (truthy latitude and longitude) and has no timestamp; a missing position or one with a timestamp never does |
| CarrierMap.Aborts | visual_tracker.py:150-179 | an empty table never raises |
| CarrierMap.AbortsSnoc | visual_tracker.py:150-179 | a non-empty table raises exactly when its prefix raises or its last carrier's position crashes |
| CarrierMap.CreateCarriersData | visual_tracker.py:147-211 | the loop raises (no list) exactly when some placed carrier's position has no timestamp; otherwise it builds exactly the carriers-data list of the table |
| CarrierMap.MockNeverAborts | visual_tracker.py:63-69 | with the placeholder key the loop never raises, since every mock position has a timestamp |
| CarrierMap.CarriersDataEntries | visual_tracker.py:149-209 | there are at most as many entries as carriers, and each entry comes from one carrier of the table |
| CarrierMap.CarriersDataAppend | visual_tracker.py:149-209 | entries follow table order: the list for a concatenated table is the concatenation of the lists |
| CarrierMap.CarriersDataAllPlaced | visual_tracker.py:149-152 | when no carrier is skipped, entry k belongs to carrier k |
| CarrierMap.EntryDefaults | visual_tracker.py:153-158 | a missing or zero course or speed is reported as 0, and the target region is classified with that course |
| CarrierMap.MockCarriersData | visual_tracker.py:149-209 | with the placeholder key all six carriers are placed, in table order, at their mock positions and 18.5 knots |
| CarrierMap.MarkerColor | visual_tracker.py:161-167 | the colour is red, blue, green or gray, and gray for any name outside the three regions |
| CarrierMap.MarkerColorMatchesRegion | visual_tracker.py:161-167 | a marker takes its region's colour, and the three region names and colours are distinct |
| CarrierMap.GroupDeployments | visual_tracker.py:230-234 | each list holds exactly the carriers whose target region is that region's name |
| CarrierMap.GroupDeploymentsDisjoint | visual_tracker.py:230-234 | the three lists are disjoint, and "Other Operations" carriers are in none |
| CarrierMap.GroupDeploymentsOrder | visual_tracker.py:230-234 | each list keeps the carriers' original order |
| CarrierMap.GenerateMapReport | visual_tracker.py:213-243 | for a tracker built with a key (after the placeholder fallback), no report exactly when building the map raised, and always a report with the placeholder key; otherwise the report holds the carriers-data list, its grouping by region, the report time, the map file name, the API source and the disclaimer |
| NewsAnalysis.IsNavyCarrierTitle | enhanced_tracker.py:42-43 | a navy.mil title is kept exactly when "carrier", "cvn", "strike group" or "deployment" occurs at some offset of its lower-cased form |
| NewsAnalysis.IsDefenseNavalTitle | enhanced_tracker.py:81-82 | a Defense News title is kept exactly when "carrier", "navy", "deployment" or "middle east" occurs at some offset of its lower-cased form |
| NewsAnalysis.KeywordTestsIgnoreCase | enhanced_tracker.py:42-43 | both scrapers' keyword tests give the same answer for a title and its lower-cased form |
| NewsAnalysis.NavyTitleByOccurrence | enhanced_tracker.py:42-43 | a navy.mil title is kept when one of its keywords occurs anywhere in it, in any case (the converse is part of `IsNavyCarrierTitle`'s contract) |
| NewsAnalysis.EmptyTitleNotKept | enhanced_tracker.py:81-82 | an empty title is kept by neither scraper |
| NewsAnalysis.NormalizeLink | enhanced_tracker.py:55 | the navy.mil prefix is added exactly when the link starts with '/': the result is then the prefix followed by the link, and otherwise the link unchanged |
| NewsAnalysis.ScrapedLink | enhanced_tracker.py:45-46 | a missing anchor yields "", a present one its normalised href |
| NewsAnalysis.NormalizeLinkIdempotent | enhanced_tracker.py:55 | normalising a normalised link changes nothing |
| NewsAnalysis.IsMiddleEastItem | enhanced_tracker.py:97-108 | an item is about the Middle East exactly when one of the 14 indicators occurs at some offset of its lower-cased title; no other field is read |
| NewsAnalysis.MiddleEastItems | enhanced_tracker.py:97-108 | the selected items are exactly the input items whose lower-cased title contains an indicator |
| NewsAnalysis.AnalyzeMiddleEastPresence | enhanced_tracker.py:95-113 | returns the matching items themselves in input order, tagged Middle East / High; non-matching items keep their tags |
| NewsAnalysis.MiddleEastItemsOrder | enhanced_tracker.py:105-111 | the analysis keeps input order: analysing two stretches is analysing each and concatenating |
| NewsAnalysis.MiddleEastItemsEmptyIff | enhanced_tracker.py:105-111 | the analysis selects nothing exactly when no item's title holds an indicator |
| NewsAnalysis.MiddleEastItemsIdempotent | enhanced_tracker.py:105-111 | analysing the result again selects all of it |
| NewsAnalysis.MediterraneanIsMiddleEast | enhanced_tracker.py:97-101 | a title mentioning the Mediterranean, in any case, is a Middle East item |
| NewsAnalysis.Bullet | enhanced_tracker.py:155 | a bullet is "• ", the title's first at most 80 characters, then "...\n" |
| NewsAnalysis.Bullets | enhanced_tracker.py:154-155 | n bullets take between 6n and 86n characters, and none gives the empty text |
| NewsAnalysis.BulletsHeadFirst | enhanced_tracker.py:154-155 | read from the front, the bullet text is the first title's bullet followed by the rest's, so the bullets follow the titles in order |
| NewsAnalysis.BulletsOfFew | enhanced_tracker.py:154-155 | the bullet text of one, two or three titles is their bullets one after another |
| NewsAnalysis.ShownBullets | enhanced_tracker.py:154-155 | the bullets of a summary are those of the first one to three titles, in order |
| NewsAnalysis.SummaryHeader | enhanced_tracker.py:153 | the count line is "Found ", the count in decimal, the fixed words, then a line break |
| NewsAnalysis.SummaryText | enhanced_tracker.py:148-157 | the fixed no-reports sentence is returned exactly for an empty list; otherwise the text is the count line followed by the bullets of the first, second and third titles, those that exist, in order |
| NewsAnalysis.GenerateSummary | enhanced_tracker.py:148-157 | the loop builds the summary text; an empty list gives the fixed no-reports sentence |
| NewsAnalysis.SummaryReportsCount | enhanced_tracker.py:153 | a non-empty summary starts "Found " followed by the full item count in decimal, which reads back as that count |
| NewsAnalysis.HeaderIsOneLine | enhanced_tracker.py:153 | the count line holds exactly one line break |
| NewsAnalysis.SummaryLineCount | enhanced_tracker.py:153-156 | a non-empty summary has one header line and min(3, n) bullet lines, provided no title has a line break in its first 80 characters (scraped titles can hold inner line breaks, which add lines) |
| NewsAnalysis.SummaryIgnoresLaterItems | enhanced_tracker.py:154 | items beyond the third do not affect the text beyond the count |
| NewsAnalysis.GetCarrierFleetStatus | enhanced_tracker.py:115-146 | recent news is the first 10 of navy then defense news; the focus and summary are those of the analysis; every focus item, and every Middle East item of recent news, carries the tags; items not about the Middle East keep their tags |
| Text.LowerChar | enhanced_tracker.py:106 | an ASCII capital becomes the letter 32 code points later, every other character is kept, and no capital remains |
| Text.Lower | enhanced_tracker.py:106 | `str.lower()` on ASCII: the same length, each character lower-cased in place |
| Text.Take | enhanced_tracker.py:142-155 | `s[:n]` keeps the first min(n, len(s)) elements unchanged |
| Text.ContainsIffOccurs | uss_tracker.py:82 | Python's `sub in s` holds exactly when sub occurs at some offset of s |
| Text.ContainsAnyIffOccurs | enhanced_tracker.py:108 | `any(k in s for k in ks)` holds exactly when some keyword occurs at some offset of s |
| Text.NatToStringRoundTrip | enhanced_tracker.py:153 | the decimal rendering of a count reads back as that count |
| Deployments.Get | uss_tracker.py:79-80 | a missing key reads as the default, a present one as its value |
| Deployments.IsMiddleEastDeployment | uss_tracker.py:79-84 | a record is selected exactly when a keyword occurs at some offset of its lower-cased status or of its lower-cased region |
| Deployments.MiddleEastDeployments | uss_tracker.py:77-86 | the output is no longer than the input and holds exactly the input records that are selected |
| Deployments.CheckMiddleEastDeployments | uss_tracker.py:70-86 | returns exactly the input records with a keyword in the lower-cased status or region, in input order |
| Deployments.NoStatusNoRegionNotSelected | uss_tracker.py:79-80 | a record with neither a status nor a region is never selected |
| Deployments.MiddleEastDeploymentsIdempotent | uss_tracker.py:77-86 | filtering the output again yields the same list |
| Deployments.MiddleEastDeploymentsOrder | uss_tracker.py:77-86 | the output keeps input order |
| Deployments.FordSampleSelected | uss_tracker.py:51-57 | the Ford sample is selected through "mediterranean" in its status |
| Deployments.EisenhowerSampleSelected | uss_tracker.py:58-63 | the Eisenhower sample is selected through its region "Middle East" |
| Deployments.SampleDeploymentsSelected | uss_tracker.py:51-64 | both sample deployments are selected |
| Deployments.TotalCarriers | uss_tracker.py:14-26 | the hull table has eleven distinct entries |
| Deployments.GetPublicCarrierPositions | uss_tracker.py:88-112 | the report counts 11 carriers and lists both samples, both as Middle East deployments |

## Left out

- The bearing trigonometry (atan2, sin, cos and the radian conversions) is a parameter, `raw`. The degenerate case of a vessel at the centre itself is covered only as far as `raw` returns 0 there; `BearingNormalisation` then gives bearing 0.
- The end point of the direction line on the map is floating-point trigonometry and map drawing.
- The MarineTraffic request in `get_vessel_position` is network I/O. Its answer is the parameter `live`.
- `get_vessel_info_marinetraffic` in `uss_tracker.py` is network I/O.
- The scraper loops `scrape_navy_news` and `scrape_defense_news` walk HTML parsed by BeautifulSoup, a foreign library. Only the title keyword tests and the link rule they apply are modelled. Their lists of scraped items are inputs to `GetCarrierFleetStatus`.
- Map drawing with folium and the popup and tooltip text are rendering only. Of the popup, only the failure of `position['timestamp'][:19]` on a missing timestamp is modelled (`CarrierMap.Crashes`).
- CarrierMap.CreateCarriersData: the live service's latitude, longitude, course and speed are taken to be numbers or missing. A string or other value would reach `is_heading_to_strategic_region`, the popup's `:.3f` format or `math.cos` and make the source raise; the model does not capture that. A timestamp is likewise taken to be a string or missing.
- Saving the map and writing JSON reports are file I/O. `CarrierMap.GenerateMapReport` builds the report record but does not write it.
- `datetime.now()` is read once per position lookup and once for the map report. The model takes one parameter `now` for every lookup of a run and a separate `reportTime` for the report. Both are opaque strings.
- The `display_*` routines, the `main` functions and `app.py` print to the console or serve files.
- Lower-casing covers ASCII letters only, not full Unicode `str.lower()`.
- Floating-point rounding is not modelled: coordinates, courses and speeds are exact reals.

=== FILE: carrier_map.dfy ===
/** The data half of the visual tracker's map: the `carriers_data` list
    built by `create_carrier_map`, the marker colour chosen per carrier, and
    the `strategic_deployments` grouping of `generate_map_report`. Map
    drawing itself is not modelled. */
module CarrierMap {
  import opened Wrappers
  import opened Sequences
  import opened Regions
  import opened VesselPositions

  /** `carrier_mmsi`, as (name, MMSI) pairs in insertion order. */
  const CarrierMmsi: seq<(string, string)> := [
    ("USS Gerald R. Ford", "368123000"),
    ("USS Nimitz", "368456000"),
    ("USS Eisenhower", "368789000"),
    ("USS Abraham Lincoln", "368234000"),
    ("USS Carl Vinson", "368567000"),
    ("USS Theodore Roosevelt", "368890000")
  ]

  /** One element of `carriers_data`. */
  datatype CarrierEntry = CarrierEntry(
    name: string,
    lat: real,
    lon: real,
    course: real,
    speed: real,
    targetRegion: string)

  /** Python truthiness of an optional number: present and non-zero. */
  predicate Truthy(x: Option<real>)
  {
    x.Some? && x.value != 0.0
  }

  /** `x or 0`: a missing or zero value becomes 0. */
  function OrZero(x: Option<real>): (r: real)
    ensures Truthy(x) ==> r == x.value
    ensures !Truthy(x) ==> r == 0.0
  {
    if Truthy(x) then x.value else 0.0
  }

  /** What one iteration of the loop appends for carrier `name` at position
      `p`: nothing when there is no position or its latitude or longitude is
      falsy (so exactly 0.0 is skipped too). */
  function EntryFor(raw: RawBearing, name: string, p: Option<Position>): (e: Option<CarrierEntry>)
    ensures e.Some? <==> p.Some? && Truthy(p.value.lat) && Truthy(p.value.lon)
    ensures e.Some? ==> e.value.name == name && e.value.lat != 0.0 && e.value.lon != 0.0
    ensures e.Some? ==> && e.value.lat == p.value.lat.value && e.value.lon == p.value.lon.value
                        && e.value.course == OrZero(p.value.course) && e.value.speed == OrZero(p.value.speed)
                        && e.value.targetRegion == HeadingRegion(raw, e.value.lat, e.value.lon, e.value.course)
  {
    if p.Some? && Truthy(p.value.lat) && Truthy(p.value.lon) then
      var course := OrZero(p.value.course);
      Some(CarrierEntry(name, p.value.lat.value, p.value.lon.value, course, OrZero(p.value.speed),
                        HeadingRegion(raw, p.value.lat.value, p.value.lon.value, course)))
    else None
  }

  /** The list the loop builds, one carrier at a time in table order. */
  function CarriersData(raw: RawBearing, carriers: seq<(string, string)>, positionOf: string -> Option<Position>)
    : (r: seq<CarrierEntry>)
    ensures |r| <= |carriers|
    ensures forall i :: 0 <= i < |r| ==> r[i].lat != 0.0 && r[i].lon != 0.0
    ensures forall i :: 0 <= i < |r| ==> exists k :: 0 <= k < |carriers| && r[i].name == carriers[k].0
  {
    if carriers == [] then []
    else
      var rest := CarriersData(raw, carriers[..|carriers| - 1], positionOf);
      var last := carriers[|carriers| - 1];
      match EntryFor(raw, last.0, positionOf(last.1))
      case None => rest
      case Some(e) => rest + [e]
  }

  /** The position lookup `create_carrier_map` uses. */
  function Lookup(apiKey: string, now: string, live: LiveLookup): string -> Option<Position>
  {
    mmsi => GetVesselPosition(apiKey, mmsi, now, live)
  }

  /** A placed carrier whose position has no timestamp stops the loop: the
      popup text slices `position['timestamp'][:19]`, which raises on `None`,
      and nothing catches it. */
  predicate Crashes(p: Option<Position>)
    ensures Crashes(p) ==> p.Some? && p.value.timestamp == None && Truthy(p.value.lat) && Truthy(p.value.lon)
    ensures p.Some? && p.value.timestamp.Some? ==> !Crashes(p)
    ensures p.None? ==> !Crashes(p)
  {
    p.Some? && Truthy(p.value.lat) && Truthy(p.value.lon) && p.value.timestamp.None?
  }

  /** Some carrier of the table makes the loop raise. */
  predicate Aborts(carriers: seq<(string, string)>, positionOf: string -> Option<Position>)
    ensures Aborts(carriers, positionOf) ==> carriers != []
  {
    exists k :: 0 <= k < |carriers| && Crashes(positionOf(carriers[k].1))
  }

  /** Whether the loop raises is decided carrier by carrier: a table raises
      exactly when its prefix does or its last carrier crashes. */
  lemma AbortsSnoc(carriers: seq<(string, string)>, positionOf: string -> Option<Position>)
    requires carriers != []
    ensures Aborts(carriers, positionOf) <==>
              Aborts(carriers[..|carriers| - 1], positionOf) || Crashes(positionOf(carriers[|carriers| - 1].1))
  {
    var init := carriers[..|carriers| - 1];
    if Aborts(carriers, positionOf) && !Crashes(positionOf(carriers[|carriers| - 1].1)) {
      var k :| 0 <= k < |carriers| && Crashes(positionOf(carriers[k].1));
      assert init[k] == carriers[k];
    }
    if Aborts(init, positionOf) {
      var k :| 0 <= k < |init| && Crashes(positionOf(init[k].1));
      assert carriers[k] == init[k];
    }
  }

  /** The `carriers_data` loop of `create_carrier_map`: `None` when the loop
      raises, and then no map is produced at all. `apiKey` is the tracker's
      key after the fallback, `EffectiveApiKey` of the key it was built with. */
  method CreateCarriersData(raw: RawBearing, carriers: seq<(string, string)>, apiKey: string, now: string, live: LiveLookup)
    returns (data: Option<seq<CarrierEntry>>)
    ensures data.None? <==> Aborts(carriers, Lookup(apiKey, now, live))
    ensures data.Some? ==> data.value == CarriersData(raw, carriers, Lookup(apiKey, now, live))
  {
    var entries := [];
    ghost var positionOf := Lookup(apiKey, now, live);
    for i := 0 to |carriers|
      invariant entries == CarriersData(raw, carriers[..i], positionOf)
      invariant forall k :: 0 <= k < i ==> !Crashes(positionOf(carriers[k].1))
    {
      var (name, mmsi) := carriers[i];
      var position := GetVesselPosition(apiKey, mmsi, now, live);
      assert positionOf(carriers[i].1) == position;
      assert carriers[..i + 1][..i] == carriers[..i];
      if position.Some? && Truthy(position.value.lat) && Truthy(position.value.lon) {
        if position.value.timestamp.None? {
          assert Crashes(positionOf(carriers[i].1));
          return None;
        }
        var lat, lon := position.value.lat.value, position.value.lon.value;
        var course := OrZero(position.value.course);
        var speed := OrZero(position.value.speed);
        var target := HeadingRegion(raw, lat, lon, course);
        assert EntryFor(raw, name, position) == Some(CarrierEntry(name, lat, lon, course, speed, target));
        entries := entries + [CarrierEntry(name, lat, lon, course, speed, target)];
      } else {
        assert EntryFor(raw, name, position) == None;
      }
    }
    assert carriers[..|carriers|] == carriers;
    data := Some(entries);
  }

  /** With the placeholder key the loop never raises: every mock position
      carries a timestamp. */
  lemma MockNeverAborts(carriers: seq<(string, string)>, now: string, live: LiveLookup)
    ensures !Aborts(carriers, Lookup(PlaceholderKey, now, live))
  {
  }

  /** Every entry comes from a carrier of the table with a truthy latitude
      and longitude, its course and speed default to 0, and its target region
      is the classifier's answer for its position and course. */
  lemma {:induction false} CarriersDataEntries(raw: RawBearing, carriers: seq<(string, string)>, positionOf: string -> Option<Position>)
    ensures |CarriersData(raw, carriers, positionOf)| <= |carriers|
    ensures forall e :: e in CarriersData(raw, carriers, positionOf) ==>
              exists c :: c in carriers && EntryFor(raw, c.0, positionOf(c.1)) == Some(e)
  {
    if carriers != [] {
      var init := carriers[..|carriers| - 1];
      CarriersDataEntries(raw, init, positionOf);
      forall e | e in CarriersData(raw, carriers, positionOf)
        ensures exists c :: c in carriers && EntryFor(raw, c.0, positionOf(c.1)) == Some(e)
      {
        if e in CarriersData(raw, init, positionOf) {
          var c :| c in init && EntryFor(raw, c.0, positionOf(c.1)) == Some(e);
          assert c in carriers;
        } else {
          assert carriers[|carriers| - 1] in carriers;
        }
      }
    }
  }

  /** Entries follow table order: the list for a longer table extends the
      list for its prefix, with at most one entry for each added carrier. */
  lemma {:induction false} CarriersDataAppend(raw: RawBearing, a: seq<(string, string)>, b: seq<(string, string)>,
                                              positionOf: string -> Option<Position>)
    ensures CarriersData(raw, a + b, positionOf) == CarriersData(raw, a, positionOf) + CarriersData(raw, b, positionOf)
    decreases |b|
  {
    if b != [] {
      var b' := b[..|b| - 1];
      assert (a + b)[..|a + b| - 1] == a + b';
      CarriersDataAppend(raw, a, b', positionOf);
    } else {
      assert a + b == a;
    }
  }

  /** A course or speed that is missing or zero is reported as 0. */
  lemma EntryDefaults(raw: RawBearing, name: string, p: Position)
    requires Truthy(p.lat) && Truthy(p.lon)
    ensures var e := EntryFor(raw, name, Some(p)).value;
            && (p.course.None? || p.course == Some(0.0) ==> e.course == 0.0)
            && (p.speed.None? || p.speed == Some(0.0) ==> e.speed == 0.0)
            && e.targetRegion == HeadingRegion(raw, p.lat.value, p.lon.value, e.course)
  {
  }

  /** When every carrier has a position with truthy latitude and longitude,
      none is skipped: entry `k` belongs to carrier `k`. */
  lemma {:induction false} CarriersDataAllPlaced(raw: RawBearing, carriers: seq<(string, string)>,
                                                 positionOf: string -> Option<Position>)
    requires forall k :: 0 <= k < |carriers| ==> EntryFor(raw, carriers[k].0, positionOf(carriers[k].1)).Some?
    ensures |CarriersData(raw, carriers, positionOf)| == |carriers|
    ensures forall k :: 0 <= k < |carriers| ==>
              CarriersData(raw, carriers, positionOf)[k] == EntryFor(raw, carriers[k].0, positionOf(carriers[k].1)).value
  {
    if carriers != [] {
      var n := |carriers|;
      var init := carriers[..n - 1];
      CarriersDataAllPlaced(raw, init, positionOf);
      var e := EntryFor(raw, carriers[n - 1].0, positionOf(carriers[n - 1].1));
      assert e.Some?;
      var data := CarriersData(raw, carriers, positionOf);
      assert data == CarriersData(raw, init, positionOf) + [e.value];
      forall k | 0 <= k < n
        ensures data[k] == EntryFor(raw, carriers[k].0, positionOf(carriers[k].1)).value
      {
        if k < n - 1 {
          assert init[k] == carriers[k];
        }
      }
    }
  }

  /** With the placeholder key all six carriers are placed, in table order,
      at their mock positions and 18.5 knots. */
  lemma MockCarriersData(raw: RawBearing, now: string, live: LiveLookup)
    ensures var data := CarriersData(raw, CarrierMmsi, Lookup(PlaceholderKey, now, live));
            && |data| == 6
            && forall k :: 0 <= k < 6 ==>
                 && data[k].name == CarrierMmsi[k].0
                 && data[k].lat == MockPositions[CarrierMmsi[k].1].lat
                 && data[k].lon == MockPositions[CarrierMmsi[k].1].lon
                 && data[k].course == MockPositions[CarrierMmsi[k].1].course
                 && data[k].speed == MockSpeed
  {
    var f := Lookup(PlaceholderKey, now, live);
    MockTableShape();
    forall k | 0 <= k < |CarrierMmsi|
      ensures CarrierMmsi[k].1 in MockPositions
      ensures EntryFor(raw, CarrierMmsi[k].0, f(CarrierMmsi[k].1)).Some?
    {
      MockPositionOfKnown(CarrierMmsi[k].1, now, live);
    }
    CarriersDataAllPlaced(raw, CarrierMmsi, f);
  }

  /** `color_map.get(target_region, "gray")`. */
  function MarkerColor(targetRegion: string): (color: string)
    ensures color in {"red", "blue", "green", "gray"}
    ensures targetRegion !in {MiddleEast, IndianOcean, EastAsia} ==> color == "gray"
  {
    var colorMap := map[MiddleEast := "red", IndianOcean := "blue", EastAsia := "green", OtherOperations := "gray"];
    if targetRegion in colorMap then colorMap[targetRegion] else "gray"
  }

  /** A marker takes the colour of the region drawn for it; the three region
      names and their colours are distinct. */
  lemma MarkerColorMatchesRegion(i: nat)
    requires i < |StrategicRegions|
    ensures MarkerColor(StrategicRegions[i].name) == StrategicRegions[i].color
    ensures forall j :: 0 <= j < |StrategicRegions| && j != i ==>
              StrategicRegions[j].name != StrategicRegions[i].name && StrategicRegions[j].color != StrategicRegions[i].color
  {
  }

  /** The `strategic_deployments` part of the map report. */
  datatype StrategicDeployments = StrategicDeployments(
    middleEast: seq<CarrierEntry>,
    indianOcean: seq<CarrierEntry>,
    eastAsia: seq<CarrierEntry>)

  /** `[c for c in carriers_data if c["target_region"] == name]`. */
  function InRegion(data: seq<CarrierEntry>, name: string): seq<CarrierEntry>
  {
    Filter(data, (c: CarrierEntry) => c.targetRegion == name)
  }

  /** The three comprehensions of `generate_map_report`. */
  function GroupDeployments(data: seq<CarrierEntry>): (d: StrategicDeployments)
    ensures forall c :: c in d.middleEast <==> c in data && c.targetRegion == MiddleEast
    ensures forall c :: c in d.indianOcean <==> c in data && c.targetRegion == IndianOcean
    ensures forall c :: c in d.eastAsia <==> c in data && c.targetRegion == EastAsia
  {
    StrategicDeployments(InRegion(data, MiddleEast), InRegion(data, IndianOcean), InRegion(data, EastAsia))
  }

  /** The three lists are disjoint, and a carrier on "Other Operations" is in
      none of them. */
  lemma GroupDeploymentsDisjoint(data: seq<CarrierEntry>)
    ensures var d := GroupDeployments(data);
            && (forall c :: c in d.middleEast ==> c !in d.indianOcean && c !in d.eastAsia)
            && (forall c :: c in d.indianOcean ==> c !in d.eastAsia)
            && (forall c :: c in data && c.targetRegion == OtherOperations ==>
                  c !in d.middleEast && c !in d.indianOcean && c !in d.eastAsia)
  {
  }

  /** Each list keeps the carriers' original order: grouping the entries of
      two consecutive stretches of the carrier list is grouping each stretch
      and concatenating. */
  lemma {:induction false} GroupDeploymentsOrder(a: seq<CarrierEntry>, b: seq<CarrierEntry>)
    ensures var d := GroupDeployments(a + b);
            var da := GroupDeployments(a);
            var db := GroupDeployments(b);
            && d.middleEast == da.middleEast + db.middleEast
            && d.indianOcean == da.indianOcean + db.indianOcean
            && d.eastAsia == da.eastAsia + db.eastAsia
            && Subsequence(d.middleEast, a + b)
            && Subsequence(d.indianOcean, a + b)
            && Subsequence(d.eastAsia, a + b)
  {
    FilterAppend(a, b, (c: CarrierEntry) => c.targetRegion == MiddleEast);
    FilterAppend(a, b, (c: CarrierEntry) => c.targetRegion == IndianOcean);
    FilterAppend(a, b, (c: CarrierEntry) => c.targetRegion == EastAsia);
    FilterIsSubsequence(a + b, (c: CarrierEntry) => c.targetRegion == MiddleEast);
    FilterIsSubsequence(a + b, (c: CarrierEntry) => c.targetRegion == IndianOcean);
    FilterIsSubsequence(a + b, (c: CarrierEntry) => c.targetRegion == EastAsia);
  }

  /** The report `generate_map_report` writes. */
  datatype MapReport = MapReport(
    timestamp: string,
    mapFile: string,
    carriers: seq<CarrierEntry>,
    strategicDeployments: StrategicDeployments,
    apiSource: string,
    disclaimer: string)

  const MapFile := "uss_carrier_map.html"
  const ApiSource := "MarineTraffic"
  const AisDisclaimer := "Military vessels may not broadcast AIS data for security reasons"

  /** `generate_map_report()` of a tracker built with `key`, with `now`
      standing for the time each position lookup reads and `reportTime` for
      the report's own timestamp: `None` when building the map raised. */
  method GenerateMapReport(raw: RawBearing, key: Option<string>, now: string, reportTime: string, live: LiveLookup)
    returns (report: Option<MapReport>)
    ensures report.None? <==> Aborts(CarrierMmsi, Lookup(EffectiveApiKey(key), now, live))
    ensures EffectiveApiKey(key) == PlaceholderKey ==> report.Some?
    ensures report.Some? ==>
              var data := CarriersData(raw, CarrierMmsi, Lookup(EffectiveApiKey(key), now, live));
              && report.value.carriers == data
              && report.value.strategicDeployments == GroupDeployments(data)
              && report.value.timestamp == reportTime
              && report.value.mapFile == MapFile
              && report.value.apiSource == ApiSource
              && report.value.disclaimer == AisDisclaimer
  {
    var apiKey := EffectiveApiKey(key);
    if apiKey == PlaceholderKey {
      MockNeverAborts(CarrierMmsi, now, live);
    }
    var data := CreateCarriersData(raw, CarrierMmsi, apiKey, now, live);
    if data.None? {
      return None;
    }
    var carriers := data.value;
    report := Some(MapReport(reportTime, MapFile, carriers, GroupDeployments(carriers), ApiSource, AisDisclaimer));
  }
}

=== FILE: compass.dfy ===
/** The direction quantizer of the visual tracker
    (`calculate_direction_arrow`): a course in degrees becomes one of eight
    arrow glyphs. The glyphs themselves are stored garbled in the source
    file, so the model keeps them as eight distinct tokens in the source's
    order: up, up-right, right, down-right, down, down-left, left, up-left,
    that is north, north-east, ... clockwise. */
module Compass {

  datatype Arrow = North | NorthEast | East | SouthEast | South | SouthWest | West | NorthWest

  /** The `directions` list, in its order. */
  const Directions: seq<Arrow> := [North, NorthEast, East, SouthEast, South, SouthWest, West, NorthWest]

  /** Python's `int(x)` on a float: truncation toward zero. */
  function Trunc(x: real): (n: int)
    ensures 0.0 <= x ==> n as real <= x < n as real + 1.0
    ensures x < 0.0 ==> n as real - 1.0 < x <= n as real
  {
    if 0.0 <= x then x.Floor else -((-x).Floor)
  }

  /** `int((course + 22.5) / 45) % 8`; Python's `%` with a positive modulus
      never returns a negative value, and neither does Dafny's. */
  function ArrowIndex(course: real): (i: int)
    ensures 0 <= i < |Directions|
  {
    Trunc((course + 22.5) / 45.0) % 8
  }

  /** `calculate_direction_arrow(course)`: for a course in [0, 360) the
      arrow of sector `k` exactly when the course lies in that sector. */
  function DirectionArrow(course: real): (a: Arrow)
    ensures 0.0 <= course < 360.0 ==>
              forall k :: 0 <= k < 8 ==> (a == Directions[k] <==> InSector(course, k))
  {
    var i := ArrowIndex(course);
    if 0.0 <= course < 360.0 then
      ArrowSector(course, i);
      Directions[i]
    else
      Directions[i]
  }

  /** Course `course` in [0, 360) lies in the 45-degree sector centred on
      `45 * k`; the sector of index 0 wraps around north. */
  predicate InSector(course: real, k: int)
  {
    if k == 0 then course < 22.5 || 337.5 <= course
    else 45.0 * k as real - 22.5 <= course < 45.0 * k as real + 22.5
  }

  /** For a course in [0, 360) the arrow index is `k` exactly when the course
      lies in sector `k`. */
  lemma ArrowSector(course: real, k: int)
    requires 0.0 <= course < 360.0 && 0 <= k < 8
    ensures ArrowIndex(course) == k <==> InSector(course, k)
  {
    var x := (course + 22.5) / 45.0;
    var t := Trunc(x);
    assert 0.0 <= x;
    assert 0 <= t <= 8 by {
      assert x < 8.5;
    }
    assert t as real * 45.0 - 22.5 <= course < t as real * 45.0 + 22.5;
    if t == 8 {
      assert ArrowIndex(course) == 0;
    } else {
      assert ArrowIndex(course) == t;
    }
  }

  /** The arrow of `course` is the arrow of its sector, so each index is
      reached by a non-empty range of courses. */
  lemma ArrowOfSector(course: real, k: int)
    requires 0.0 <= course < 360.0 && 0 <= k < 8 && InSector(course, k)
    ensures DirectionArrow(course) == Directions[k]
  {
    ArrowSector(course, k);
  }

  /** A full turn does not change the arrow of a non-negative course. */
  lemma ArrowFullTurn(course: real)
    requires 0.0 <= course
    ensures DirectionArrow(course + 360.0) == DirectionArrow(course)
  {
    var x := (course + 22.5) / 45.0;
    var y := (course + 360.0 + 22.5) / 45.0;
    assert y == x + 8.0;
    assert Trunc(y) == Trunc(x) + 8;
  }

  /** Because `int()` truncates toward zero, every course in (-67.5, 22.5)
      gets the north arrow: a small negative course is not wrapped round to
      the north-west sector as a floor-based quantizer would do. */
  lemma ArrowTruncatesNegativeCourses(course: real)
    requires -67.5 < course < 22.5
    ensures DirectionArrow(course) == North
  {
    var x := (course + 22.5) / 45.0;
    assert -1.0 < x < 1.0;
    assert Trunc(x) == 0;
  }

  /** Sample courses: 0 and 360 are north, 45 is north-east,
      315 is north-west, and -45 is north (not north-west). */
  lemma ArrowSamples()
    ensures DirectionArrow(0.0) == North
    ensures DirectionArrow(45.0) == NorthEast
    ensures DirectionArrow(360.0) == DirectionArrow(0.0)
    ensures DirectionArrow(315.0) == NorthWest
    ensures DirectionArrow(-45.0) == North
  {
    ArrowOfSector(0.0, 0);
    ArrowOfSector(45.0, 1);
    ArrowFullTurn(0.0);
    ArrowOfSector(315.0, 7);
    ArrowTruncatesNegativeCourses(-45.0);
  }
}

=== FILE: deployments.dfy ===
/** The deployment filter of the basic tracker (`uss_tracker.py`): which
    reported deployments are in or heading to the Middle East, the sample
    deployments it reports, and the size of its hull table. Deployment
    records are string dictionaries; the filter never changes them and
    returns the very records it was given. */
module Deployments {
  import opened Sequences
  import opened Text

  /** A deployment dictionary (`vessel`, `status`, `last_update`, `region`). */
  type Record = map<string, string>

  /** `d.get(key, default)`. */
  function Get(d: Record, key: string, default: string): (v: string)
    ensures key in d ==> v == d[key]
    ensures key !in d ==> v == default
  {
    if key in d then d[key] else default
  }

  /** `middle_east_keywords`. */
  const MiddleEastKeywords: seq<string> := [
    "middle east", "persian gulf", "red sea", "arabian sea",
    "strait of hormuz", "suez canal", "mediterranean"
  ]

  /** Some keyword occurs in the lower-cased status or the lower-cased region;
      a missing key reads as the empty string. */
  predicate IsMiddleEastDeployment(d: Record)
    ensures IsMiddleEastDeployment(d) <==>
              (exists k, i: nat :: k in MiddleEastKeywords && OccursAt(Lower(Get(d, "status", "")), k, i)) ||
              (exists k, i: nat :: k in MiddleEastKeywords && OccursAt(Lower(Get(d, "region", "")), k, i))
  {
    ContainsAnyIffOccurs(Lower(Get(d, "status", "")), MiddleEastKeywords);
    ContainsAnyIffOccurs(Lower(Get(d, "region", "")), MiddleEastKeywords);
    exists k :: k in MiddleEastKeywords &&
      (Contains(Lower(Get(d, "status", "")), k) || Contains(Lower(Get(d, "region", "")), k))
  }

  /** The deployments the filter keeps, in input order. */
  function MiddleEastDeployments(ds: seq<Record>): (r: seq<Record>)
    ensures |r| <= |ds|
    ensures forall d :: d in r <==> d in ds && IsMiddleEastDeployment(d)
  {
    Filter(ds, IsMiddleEastDeployment)
  }

  /** `check_middle_east_deployments(deployments)`. */
  method CheckMiddleEastDeployments(deployments: seq<Record>) returns (selected: seq<Record>)
    ensures selected == MiddleEastDeployments(deployments)
    ensures forall d :: d in selected <==> d in deployments && IsMiddleEastDeployment(d)
  {
    selected := [];
    for i := 0 to |deployments|
      invariant selected == MiddleEastDeployments(deployments[..i])
    {
      var deployment := deployments[i];
      var statusLower := Lower(Get(deployment, "status", ""));
      var regionLower := Lower(Get(deployment, "region", ""));
      assert deployments[..i + 1] == deployments[..i] + [deployment];
      FilterAppend(deployments[..i], [deployment], IsMiddleEastDeployment);
      if exists k :: k in MiddleEastKeywords && (Contains(statusLower, k) || Contains(regionLower, k)) {
        selected := selected + [deployment];
      }
    }
    assert deployments[..|deployments|] == deployments;
  }

  /** A record with neither a `status` nor a `region` is never selected,
      because no keyword occurs in the empty string. */
  lemma NoStatusNoRegionNotSelected(d: Record)
    requires "status" !in d && "region" !in d
    ensures !IsMiddleEastDeployment(d)
  {
    forall k | k in MiddleEastKeywords ensures !Contains(Lower(""), k) {
      assert Lower("") == [];
      EmptyContainsNothing(k);
    }
  }

  /** Filtering the filter's output again returns it unchanged. */
  lemma MiddleEastDeploymentsIdempotent(ds: seq<Record>)
    ensures MiddleEastDeployments(MiddleEastDeployments(ds)) == MiddleEastDeployments(ds)
  {
    FilterIdempotent(ds, IsMiddleEastDeployment);
  }

  /** The output keeps input order, stretch by stretch. */
  lemma MiddleEastDeploymentsOrder(a: seq<Record>, b: seq<Record>)
    ensures MiddleEastDeployments(a + b) == MiddleEastDeployments(a) + MiddleEastDeployments(b)
    ensures Subsequence(MiddleEastDeployments(a + b), a + b)
  {
    FilterAppend(a, b, IsMiddleEastDeployment);
    FilterIsSubsequence(a + b, IsMiddleEastDeployment);
  }

  /** The sample deployments `get_navy_news_deployments` returns. */
  const SampleDeployments: seq<Record> := [
    map["vessel" := "USS Gerald R. Ford", "status" := "Deployed to Mediterranean",
        "last_update" := "2024-01-15", "region" := "Europe/Mediterranean"],
    map["vessel" := "USS Dwight D. Eisenhower", "status" := "Operating in Red Sea region",
        "last_update" := "2024-01-10", "region" := "Middle East"]
  ]

  /** The first sample (Ford) is selected through the keyword
      "mediterranean" in its status. */
  lemma FordSampleSelected()
    ensures IsMiddleEastDeployment(SampleDeployments[0])
  {
    var status := "Deployed to Mediterranean";
    assert Get(SampleDeployments[0], "status", "") == status;
    assert status[12..25] == "Mediterranean";
    LowerSlice(status, 12, 25);
    assert Lower("Mediterranean") == "mediterranean";
    OccursAtContains(Lower(status), "mediterranean", 12);
    assert MiddleEastKeywords[6] == "mediterranean";
  }

  /** The second sample (Eisenhower) is selected through its region,
      "Middle East". */
  lemma EisenhowerSampleSelected()
    ensures IsMiddleEastDeployment(SampleDeployments[1])
  {
    assert Get(SampleDeployments[1], "region", "") == "Middle East";
    assert Lower("Middle East") == "middle east";
    OccursAtContains("middle east", "middle east", 0);
    assert MiddleEastKeywords[0] == "middle east";
  }

  /** Both sample deployments are selected. */
  lemma SampleDeploymentsSelected()
    ensures MiddleEastDeployments(SampleDeployments) == SampleDeployments
  {
    FordSampleSelected();
    EisenhowerSampleSelected();
    FilterKeepsAll(SampleDeployments, IsMiddleEastDeployment);
  }

  /** `self.carriers`: hull number to ship name. */
  const Carriers: map<string, string> := map[
    "CVN-68" := "USS Nimitz",
    "CVN-69" := "USS Dwight D. Eisenhower",
    "CVN-70" := "USS Carl Vinson",
    "CVN-71" := "USS Theodore Roosevelt",
    "CVN-72" := "USS Abraham Lincoln",
    "CVN-73" := "USS George Washington",
    "CVN-74" := "USS John C. Stennis",
    "CVN-75" := "USS Harry S. Truman",
    "CVN-76" := "USS Ronald Reagan",
    "CVN-77" := "USS George H.W. Bush",
    "CVN-78" := "USS Gerald R. Ford"
  ]

  const DataSources: seq<string> := ["US Navy Public Affairs", "Defense News", "Public Maritime Tracking"]

  const Disclaimer := "This data is from public sources only. Actual military positions are classified."

  /** The dictionary `get_public_carrier_positions` returns. */
  datatype CarrierReport = CarrierReport(
    timestamp: string,
    totalCarriers: nat,
    allDeployments: seq<Record>,
    middleEastDeployments: seq<Record>,
    dataSources: seq<string>,
    disclaimer: string)

  /** `get_public_carrier_positions()`, with `now` standing for the current
      time. */
  method GetPublicCarrierPositions(now: string) returns (report: CarrierReport)
    ensures report.totalCarriers == 11
    ensures report.allDeployments == SampleDeployments
    ensures report.middleEastDeployments == SampleDeployments
    ensures report.timestamp == now && report.dataSources == DataSources && report.disclaimer == Disclaimer
  {
    var deployments := SampleDeployments;
    var middleEast := CheckMiddleEastDeployments(deployments);
    SampleDeploymentsSelected();
    TotalCarriers();
    report := CarrierReport(now, |Carriers|, deployments, middleEast, DataSources, Disclaimer);
  }

  /** The hull table has eleven distinct entries. */
  lemma TotalCarriers()
    ensures |Carriers| == 11
  {
    var m: map<string, string> := map[];
    m := m["CVN-68" := "USS Nimitz"];
    assert "CVN-69" !in m;
    m := m["CVN-69" := "USS Dwight D. Eisenhower"];
    assert "CVN-70" !in m;
    m := m["CVN-70" := "USS Carl Vinson"];
    assert "CVN-71" !in m;
    m := m["CVN-71" := "USS Theodore Roosevelt"];
    assert "CVN-72" !in m;
    m := m["CVN-72" := "USS Abraham Lincoln"];
    assert "CVN-73" !in m;
    m := m["CVN-73" := "USS George Washington"];
    assert "CVN-74" !in m;
    m := m["CVN-74" := "USS John C. Stennis"];
    assert "CVN-75" !in m;
    m := m["CVN-75" := "USS Harry S. Truman"];
    assert "CVN-76" !in m;
    m := m["CVN-76" := "USS Ronald Reagan"];
    assert "CVN-77" !in m;
    m := m["CVN-77" := "USS George H.W. Bush"];
    assert "CVN-78" !in m;
    m := m["CVN-78" := "USS Gerald R. Ford"];
    assert |m| == 11;
    assert m == Carriers;
  }
}

=== FILE: news.dfy ===
/** The analysis half of the enhanced tracker: the title keyword tests and
    link normalisation its two scrapers apply, the Middle East analysis that
    tags news items in place, the fleet-status assembly and the text
    summary. The HTML scraping that produces the titles and links is not
    modelled. */
module NewsAnalysis {
  import opened Wrappers
  import opened Sequences
  import opened Text

  /** A scraped news item: a dictionary whose title, date, source and link
      the tracker never changes, and to which the analysis adds `region` and
      `relevance` in place. Items are shared by reference between the lists
      of the fleet status. */
  class NewsItem {
    const title: string
    const date: string
    const source: string
    const link: Option<string>
    var region: Option<string>
    var relevance: Option<string>

    constructor (title: string, date: string, source: string, link: Option<string>)
      ensures this.title == title && this.date == date && this.source == source && this.link == link
      ensures region == None && relevance == None
    {
      this.title := title;
      this.date := date;
      this.source := source;
      this.link := link;
      region := None;
      relevance := None;
    }
  }

  // ----- What the scrapers keep -----

  /** Keywords that make a navy.mil article carrier-related. */
  const NavyKeywords: seq<string> := ["carrier", "cvn", "strike group", "deployment"]

  /** Keywords that make a Defense News article relevant. */
  const DefenseKeywords: seq<string> := ["carrier", "navy", "deployment", "middle east"]

  /** The navy.mil scraper keeps an article whose lower-cased title contains
      one of its keywords. */
  predicate IsNavyCarrierTitle(title: string)
    ensures IsNavyCarrierTitle(title) <==>
              exists k, i: nat :: k in NavyKeywords && OccursAt(Lower(title), k, i)
  {
    ContainsAnyIffOccurs(Lower(title), NavyKeywords);
    ContainsAny(Lower(title), NavyKeywords)
  }

  /** The Defense News scraper keeps an article whose lower-cased title
      contains one of its keywords. */
  predicate IsDefenseNavalTitle(title: string)
    ensures IsDefenseNavalTitle(title) <==>
              exists k, i: nat :: k in DefenseKeywords && OccursAt(Lower(title), k, i)
  {
    ContainsAnyIffOccurs(Lower(title), DefenseKeywords);
    ContainsAny(Lower(title), DefenseKeywords)
  }

  /** Both keyword tests ignore ASCII case: they give the same answer for a
      title and its lower-cased form, and each keyword is itself lower-case. */
  lemma KeywordTestsIgnoreCase(title: string)
    ensures IsNavyCarrierTitle(title) <==> IsNavyCarrierTitle(Lower(title))
    ensures IsDefenseNavalTitle(title) <==> IsDefenseNavalTitle(Lower(title))
    ensures forall k :: k in NavyKeywords + DefenseKeywords ==> Lower(k) == k
  {
    LowerIdempotent(title);
  }

  /** A title is kept when a keyword occurs anywhere in it, in any case. */
  lemma NavyTitleByOccurrence(title: string, k: string, i: nat)
    requires k in NavyKeywords && OccursAt(Lower(title), k, i)
    ensures IsNavyCarrierTitle(title)
  {
    OccursAtContains(Lower(title), k, i);
  }

  /** An empty title is never kept by either scraper. */
  lemma EmptyTitleNotKept()
    ensures !IsNavyCarrierTitle("") && !IsDefenseNavalTitle("")
  {
    forall k | k in NavyKeywords + DefenseKeywords ensures !Contains([], k) {
      EmptyContainsNothing(k);
    }
  }

  const NavyBase := "https://www.navy.mil"

  /** `f"https://www.navy.mil{link}" if link.startswith('/') else link`. */
  function NormalizeLink(link: string): (r: string)
    ensures StartsWith(link, "/") <==> StartsWith(r, NavyBase) && r != link
    ensures |link| <= |r| && r[|r| - |link|..] == link
    ensures StartsWith(link, "/") ==> |r| == |NavyBase| + |link| && r[..|NavyBase|] == NavyBase
    ensures !StartsWith(link, "/") ==> r == link
  {
    if StartsWith(link, "/") then NavyBase + link else link
  }

  /** The link of a navy.mil item: the anchor's `href`, or "" when the title
      has no anchor, normalised. */
  function ScrapedLink(href: Option<string>): (r: string)
    ensures href.None? ==> r == ""
    ensures href.Some? ==> r == NormalizeLink(href.value)
  {
    NormalizeLink(href.GetOr(""))
  }

  /** Normalising a normalised link changes nothing: an absolute link never
      starts with '/'. */
  lemma NormalizeLinkIdempotent(link: string)
    ensures NormalizeLink(NormalizeLink(link)) == NormalizeLink(link)
  {
    if StartsWith(link, "/") {
      assert NormalizeLink(link)[0] == 'h';
    }
  }

  // ----- Middle East analysis -----

  /** `middle_east_indicators`. */
  const MiddleEastIndicators: seq<string> := [
    "middle east", "persian gulf", "red sea", "arabian sea",
    "strait of hormuz", "suez canal", "mediterranean", "centcom",
    "fifth fleet", "bahrain", "qatar", "uae", "israel", "iran"
  ]

  const MiddleEastTag := "Middle East"
  const HighRelevance := "High"

  /** An item is about the Middle East when its lower-cased title contains an
      indicator; no other field is consulted. */
  predicate IsMiddleEastItem(item: NewsItem)
    ensures IsMiddleEastItem(item) <==>
              exists k, i: nat :: k in MiddleEastIndicators && OccursAt(Lower(item.title), k, i)
  {
    ContainsAnyIffOccurs(Lower(item.title), MiddleEastIndicators);
    ContainsAny(Lower(item.title), MiddleEastIndicators)
  }

  /** The items a Middle East analysis selects, in input order. */
  function MiddleEastItems(news: seq<NewsItem>): (r: seq<NewsItem>)
    ensures forall i :: 0 <= i < |r| ==> r[i] in news && IsMiddleEastItem(r[i])
    ensures forall i :: 0 <= i < |news| && IsMiddleEastItem(news[i]) ==> news[i] in r
  {
    Filter(news, IsMiddleEastItem)
  }

  /** `analyze_middle_east_presence(news_data)`: returns the matching items
      themselves (not copies), in input order, after setting their `region`
      and `relevance`; non-matching items are left as they were. */
  method AnalyzeMiddleEastPresence(news: seq<NewsItem>) returns (focus: seq<NewsItem>)
    modifies news
    ensures focus == MiddleEastItems(news)
    ensures forall x :: x in focus ==> x.region == Some(MiddleEastTag) && x.relevance == Some(HighRelevance)
    ensures forall x :: x in news && !IsMiddleEastItem(x) ==>
              x.region == old(x.region) && x.relevance == old(x.relevance)
  {
    focus := [];
    for i := 0 to |news|
      invariant focus == MiddleEastItems(news[..i])
      invariant forall x :: x in focus ==> x.region == Some(MiddleEastTag) && x.relevance == Some(HighRelevance)
      invariant forall x :: x in news && !IsMiddleEastItem(x) ==>
                  x.region == old(x.region) && x.relevance == old(x.relevance)
    {
      var item := news[i];
      assert news[..i + 1] == news[..i] + [item];
      FilterAppend(news[..i], [item], IsMiddleEastItem);
      var titleLower := Lower(item.title);
      if ContainsAny(titleLower, MiddleEastIndicators) {
        item.region := Some(MiddleEastTag);
        item.relevance := Some(HighRelevance);
        focus := focus + [item];
      }
    }
    assert news[..|news|] == news;
  }

  /** The analysis keeps input order, stretch by stretch. */
  lemma MiddleEastItemsOrder(a: seq<NewsItem>, b: seq<NewsItem>)
    ensures MiddleEastItems(a + b) == MiddleEastItems(a) + MiddleEastItems(b)
    ensures Subsequence(MiddleEastItems(a + b), a + b)
  {
    FilterAppend(a, b, IsMiddleEastItem);
    FilterIsSubsequence(a + b, IsMiddleEastItem);
  }

  /** The analysis selects nothing exactly when no title holds an indicator. */
  lemma MiddleEastItemsEmptyIff(news: seq<NewsItem>)
    ensures MiddleEastItems(news) == [] <==> forall i :: 0 <= i < |news| ==> !IsMiddleEastItem(news[i])
  {
    FilterEmptyIff(news, IsMiddleEastItem);
  }

  /** Analysing the analysis result selects all of it again. */
  lemma MiddleEastItemsIdempotent(news: seq<NewsItem>)
    ensures MiddleEastItems(MiddleEastItems(news)) == MiddleEastItems(news)
  {
    FilterIdempotent(news, IsMiddleEastItem);
  }

  /** A title mentioning the Mediterranean, in any case, is a Middle East
      item. */
  lemma MediterraneanIsMiddleEast(item: NewsItem, i: nat)
    requires OccursAt(Lower(item.title), "mediterranean", i)
    ensures IsMiddleEastItem(item)
  {
    OccursAtContains(Lower(item.title), "mediterranean", i);
  }

  // ----- Summary -----

  /** The sentence of an empty summary (built from short pieces, which the
      verifier inspects character by character more readily). */
  const NoReportsSentence := "No recent" + " public" + " reports of" + " carrier" + " operations" +
    " in Middle East" + " region"

  /** The words after the count on the first line of a summary. */
  const CountLineText := " recent reports" + " related to" + " Middle East" + " operations:"

  /** The first line of a non-empty summary, reporting the full count. */
  function SummaryHeader(count: nat): (h: string)
    ensures var d := NatToString(count);
            && |h| == 6 + |d| + |CountLineText| + 1
            && h[..6] == "Found " && h[6..6 + |d|] == d && h[|h| - 1] == '\n'
  {
    "Found " + NatToString(count) + CountLineText + "\n"
  }

  /** One bullet line: the title cut to 80 characters, then "...". */
  function Bullet(title: string): (b: string)
    ensures |b| == |Take(title, 80)| + 6 && |b| <= 86
    ensures b[..2] == "• " && b[|b| - 4..] == "...\n"
    ensures b[2..|b| - 4] == Take(title, 80)
  {
    "• " + Take(title, 80) + "...\n"
  }

  /** The bullet lines of `titles`, in order. */
  function Bullets(titles: seq<string>): (b: string)
    ensures titles == [] <==> b == ""
    ensures 6 * |titles| <= |b| <= 86 * |titles|
  {
    if titles == [] then "" else Bullets(titles[..|titles| - 1]) + Bullet(titles[|titles| - 1])
  }

  /** Read from the front, the bullet text is the first title's bullet
      followed by the bullets of the rest. */
  lemma {:induction false} BulletsHeadFirst(titles: seq<string>)
    requires titles != []
    ensures Bullets(titles) == Bullet(titles[0]) + Bullets(titles[1..])
    decreases |titles|
  {
    var n := |titles|;
    var init := titles[..n - 1];
    if init == [] {
      assert titles[1..] == [];
    } else {
      BulletsHeadFirst(init);
      BulletsOfTail(titles);
      assert init[0] == titles[0];
      Regroup(Bullets(titles), Bullet(titles[0]), Bullets(init[1..]), Bullet(titles[n - 1]), Bullets(titles[1..]));
    }
  }

  /** Regrouping a three-part concatenation. */
  lemma Regroup(whole: string, head: string, middle: string, last: string, rest: string)
    requires whole == (head + middle) + last && rest == middle + last
    ensures whole == head + rest
  {
  }

  /** Dropping the first title commutes with unfolding the last one. */
  lemma BulletsOfTail(titles: seq<string>)
    requires |titles| >= 2
    ensures Bullets(titles[1..]) == Bullets(titles[..|titles| - 1][1..]) + Bullet(titles[|titles| - 1])
  {
    var rest := titles[1..];
    assert rest[..|rest| - 1] == titles[..|titles| - 1][1..];
  }

  /** The bullet text of one, two or three titles, written out. */
  lemma BulletsOfFew(x: string, y: string, z: string)
    ensures Bullets([x]) == Bullet(x)
    ensures Bullets([x, y]) == Bullet(x) + Bullet(y)
    ensures Bullets([x, y, z]) == Bullet(x) + Bullet(y) + Bullet(z)
  {
    assert [x][..0] == [];
    assert [x, y][..1] == [x];
    assert [x, y, z][..2] == [x, y];
  }

  /** The bullets of a summary are those of its first one to three titles,
      in order. */
  lemma ShownBullets(titles: seq<string>)
    requires titles != []
    ensures Bullets(Take(titles, 3)) == Bullet(titles[0])
              + (if |titles| >= 2 then Bullet(titles[1]) else "")
              + (if |titles| >= 3 then Bullet(titles[2]) else "")
  {
    var t := Take(titles, 3);
    var y := if |t| >= 2 then t[1] else "";
    var z := if |t| >= 3 then t[2] else "";
    BulletsOfFew(titles[0], y, z);
    if |t| == 1 {
      assert t == [titles[0]];
    } else if |t| == 2 {
      assert t == [titles[0], y];
    } else {
      assert t == [titles[0], y, z];
    }
  }

  /** The text `generate_summary` builds from the items' titles. */
  function SummaryText(titles: seq<string>): (r: string)
    ensures titles == [] <==> r == NoReportsSentence
    ensures titles != [] ==>
              r == SummaryHeader(|titles|) + (Bullet(titles[0])
                   + (if |titles| >= 2 then Bullet(titles[1]) else "")
                   + (if |titles| >= 3 then Bullet(titles[2]) else ""))
    ensures titles != [] ==>
              var h := SummaryHeader(|titles|);
              |h| <= |r| <= |h| + 3 * 86 && r[..|h|] == h && r[..6] == "Found "
  {
    if titles == [] then NoReportsSentence
    else
      ShownBullets(titles);
      var r := SummaryHeader(|titles|) + Bullets(Take(titles, 3));
      assert r[0] == 'F' && NoReportsSentence[0] == 'N';
      r
  }

  /** The titles of `items`, in order. */
  function Titles(items: seq<NewsItem>): (ts: seq<string>)
    ensures |ts| == |items| && forall i :: 0 <= i < |items| ==> ts[i] == items[i].title
  {
    seq(|items|, i requires 0 <= i < |items| => items[i].title)
  }

  /** `generate_summary(middle_east_data)`: the fixed sentence when there is
      nothing to report, otherwise the count line and a bullet for each of
      the first three items. */
  method GenerateSummary(items: seq<NewsItem>) returns (summary: string)
    ensures summary == SummaryText(Titles(items))
    ensures items == [] ==> summary == NoReportsSentence
  {
    if items == [] {
      return NoReportsSentence;
    }
    var shown := Take(items, 3);
    summary := SummaryHeader(|items|);
    for i := 0 to |shown|
      invariant summary == SummaryHeader(|items|) + Bullets(Titles(shown[..i]))
    {
      var before, next := Titles(shown[..i]), Titles(shown[..i + 1]);
      assert next[..i] == before && next[i] == shown[i].title;
      Regroup(summary + Bullet(shown[i].title), SummaryHeader(|items|), Bullets(before), Bullet(shown[i].title),
              Bullets(next));
      summary := summary + Bullet(shown[i].title);
    }
    assert shown[..|shown|] == shown;
    assert Titles(shown) == Take(Titles(items), 3);
    assert |Titles(items)| == |items|;
  }

  /** A non-empty summary starts with "Found ", then the decimal count of all
      items (not just the three shown), then a space. */
  lemma SummaryReportsCount(titles: seq<string>)
    requires titles != []
    ensures var s := SummaryText(titles);
            var d := NatToString(|titles|);
            && |s| > 7 + |d|
            && s[..6] == "Found "
            && s[6..6 + |d|] == d && DigitsValue(d) == |titles|
            && s[6 + |d|] == ' '
  {
    NatToStringRoundTrip(|titles|);
    var d := NatToString(|titles|);
    var rest := CountLineText + "\n" + Bullets(Take(titles, 3));
    assert SummaryText(titles) == "Found " + d + rest;
    assert rest[0] == CountLineText[0] == ' ';
  }

  /** Occurrences of `c` in `s`. */
  function CountChar(s: string, c: char): nat
  {
    if s == [] then 0 else CountChar(s[..|s| - 1], c) + (if s[|s| - 1] == c then 1 else 0)
  }

  lemma {:induction false} CountCharAppend(a: string, b: string, c: char)
    ensures CountChar(a + b, c) == CountChar(a, c) + CountChar(b, c)
    decreases |b|
  {
    if b == [] {
      assert a + b == a;
    } else {
      assert (a + b)[..|a + b| - 1] == a + b[..|b| - 1];
      CountCharAppend(a, b[..|b| - 1], c);
    }
  }

  lemma {:induction false} CountCharAbsent(s: string, c: char)
    requires c !in s
    ensures CountChar(s, c) == 0
  {
    if s != [] {
      assert s == s[..|s| - 1] + [s[|s| - 1]];
      CountCharAbsent(s[..|s| - 1], c);
    }
  }

  /** A bullet is one line when its cut title holds no line break. */
  lemma BulletIsOneLine(title: string)
    requires forall i :: 0 <= i < |Take(title, 80)| ==> Take(title, 80)[i] != '\n'
    ensures CountChar(Bullet(title), '\n') == 1
  {
    CountCharAppend("• " + Take(title, 80), "...\n", '\n');
    CountCharAppend("• ", Take(title, 80), '\n');
    CountCharAbsent(Take(title, 80), '\n');
    CountCharAbsent("• ", '\n');
    assert CountChar("...\n", '\n') == 1 by {
      assert "...\n"[..3] == "...";
      CountCharAbsent("...", '\n');
    }
    assert '\n' !in Take(title, 80);
  }

  lemma {:induction false} BulletsLines(titles: seq<string>)
    requires forall j :: 0 <= j < |titles| ==> forall i :: 0 <= i < |Take(titles[j], 80)| ==> Take(titles[j], 80)[i] != '\n'
    ensures CountChar(Bullets(titles), '\n') == |titles|
  {
    if titles != [] {
      var init := titles[..|titles| - 1];
      BulletsLines(init);
      CountCharAppend(Bullets(init), Bullet(titles[|titles| - 1]), '\n');
      BulletIsOneLine(titles[|titles| - 1]);
    }
  }

  /** The count line holds exactly one line break, at its end. */
  lemma HeaderIsOneLine(count: nat)
    ensures CountChar(SummaryHeader(count), '\n') == 1
  {
    var d := NatToString(count);
    CountCharAppend("Found " + d + CountLineText, "\n", '\n');
    CountCharAppend("Found " + d, CountLineText, '\n');
    CountCharAppend("Found ", d, '\n');
    CountCharAbsent("Found ", '\n');
    CountCharAbsent(d, '\n');
    CountCharAbsent(CountLineText, '\n');
    assert CountChar("\n", '\n') == 1;
  }

  /** A non-empty summary is the header line plus one line per shown title,
      and at most three titles are shown (titles whose first 80 characters
      hold a line break would add lines of their own). */
  lemma SummaryLineCount(titles: seq<string>)
    requires titles != []
    requires forall j :: 0 <= j < |titles| ==> forall i :: 0 <= i < |Take(titles[j], 80)| ==> Take(titles[j], 80)[i] != '\n'
    ensures CountChar(SummaryText(titles), '\n') == 1 + (if |titles| < 3 then |titles| else 3)
  {
    HeaderIsOneLine(|titles|);
    CountCharAppend(SummaryHeader(|titles|), Bullets(Take(titles, 3)), '\n');
    BulletsLines(Take(titles, 3));
  }

  /** Items beyond the third never reach the text: two lists of the same
      length that agree on their first three titles get the same summary. */
  lemma SummaryIgnoresLaterItems(ts: seq<string>, us: seq<string>)
    requires |ts| == |us| && Take(ts, 3) == Take(us, 3)
    ensures SummaryText(ts) == SummaryText(us)
  {
  }

  // ----- Fleet status -----

  /** `carrier_groups`: each strike group's typical area of responsibility. */
  const CarrierGroups: seq<(string, string)> := [
    ("USS Gerald R. Ford (CVN-78)", "Atlantic/Mediterranean"),
    ("USS George H.W. Bush (CVN-77)", "Atlantic/Mediterranean"),
    ("USS Harry S. Truman (CVN-75)", "Atlantic/Mediterranean"),
    ("USS Dwight D. Eisenhower (CVN-69)", "Middle East/Red Sea"),
    ("USS Abraham Lincoln (CVN-72)", "Pacific/Indo-Pacific"),
    ("USS Carl Vinson (CVN-70)", "Pacific/Indo-Pacific"),
    ("USS Theodore Roosevelt (CVN-71)", "Pacific/Indo-Pacific"),
    ("USS Ronald Reagan (CVN-76)", "Japan/Western Pacific")
  ]

  const DataDisclaimer := "Based on publicly available information only"

  /** The dictionary `get_carrier_fleet_status` returns. */
  datatype FleetStatus = FleetStatus(
    timestamp: string,
    carrierStrikeGroups: seq<(string, string)>,
    recentNews: seq<NewsItem>,
    middleEastFocus: seq<NewsItem>,
    intelligenceSummary: string,
    dataDisclaimer: string)

  /** `get_carrier_fleet_status()` given what the two scrapers returned and
      the current time. Because the analysis tags items in place, the items
      of `recentNews` that mention the Middle East carry the tags too. */
  method GetCarrierFleetStatus(navyNews: seq<NewsItem>, defenseNews: seq<NewsItem>, now: string)
    returns (status: FleetStatus)
    modifies navyNews, defenseNews
    ensures status.recentNews == Take(navyNews + defenseNews, 10)
    ensures status.middleEastFocus == MiddleEastItems(navyNews + defenseNews)
    ensures status.intelligenceSummary == SummaryText(Titles(status.middleEastFocus))
    ensures forall x :: x in status.middleEastFocus ==>
              x.region == Some(MiddleEastTag) && x.relevance == Some(HighRelevance)
    ensures forall x :: x in status.recentNews && IsMiddleEastItem(x) ==>
              x.region == Some(MiddleEastTag) && x.relevance == Some(HighRelevance)
    ensures forall x :: x in navyNews + defenseNews && !IsMiddleEastItem(x) ==>
              x.region == old(x.region) && x.relevance == old(x.relevance)
    ensures status.carrierStrikeGroups == CarrierGroups && status.timestamp == now
    ensures status.dataDisclaimer == DataDisclaimer
  {
    var allNews := navyNews + defenseNews;
    var focus := AnalyzeMiddleEastPresence(allNews);
    var summary := GenerateSummary(focus);
    status := FleetStatus(now, CarrierGroups, Take(allNews, 10), focus, summary, DataDisclaimer);
  }
}

=== FILE: positions.dfy ===
/** Where the visual tracker gets a carrier's position
    (`get_vessel_position`). With the placeholder API key it answers from a
    fixed mock table; with a real key it asks the MarineTraffic service,
    which the model takes as a parameter `live`. */
module VesselPositions {
  import opened Wrappers

  /** A position record. Fields that the live service may leave empty are
      optional, the timestamp included; a timestamp is an opaque string. */
  datatype Position = Position(
    mmsi: string,
    lat: Option<real>,
    lon: Option<real>,
    course: Option<real>,
    speed: Option<real>,
    timestamp: Option<string>)

  /** The answer of the live service for one MMSI, or `None` when the request
      failed, returned a non-200 status or an empty list. */
  type LiveLookup = string -> Option<Position>

  const PlaceholderKey := "YOUR_MARINETRAFFIC_API_KEY"

  /** The speed every mock position reports, in knots. */
  const MockSpeed: real := 18.5

  /** `api_key or "YOUR_MARINETRAFFIC_API_KEY"`: a missing or empty key falls
      back to the placeholder. */
  function EffectiveApiKey(key: Option<string>): (k: string)
    ensures k == PlaceholderKey <==> (key == None || key == Some("") || key == Some(PlaceholderKey))
    ensures k != PlaceholderKey ==> key == Some(k)
  {
    match key
    case None => PlaceholderKey
    case Some(s) => if s == "" then PlaceholderKey else s
  }

  datatype MockFix = MockFix(lat: real, lon: real, course: real)

  /** `mock_positions`, keyed by MMSI. */
  const MockPositions: map<string, MockFix> := map[
    "368123000" := MockFix(35.2, 33.1, 90.0),
    "368456000" := MockFix(26.8, 50.3, 270.0),
    "368789000" := MockFix(20.5, 40.2, 180.0),
    "368234000" := MockFix(1.3, 103.8, 225.0),
    "368567000" := MockFix(35.7, 139.7, 180.0),
    "368890000" := MockFix(21.3, -157.8, 270.0)
  ]

  /** `get_vessel_position(mmsi)` under the effective key `apiKey`, with `now`
      standing for `datetime.now().isoformat()`. */
  function GetVesselPosition(apiKey: string, mmsi: string, now: string, live: LiveLookup): (p: Option<Position>)
    ensures p.Some? ==> p.value.mmsi == mmsi
    ensures apiKey == PlaceholderKey && p.Some? ==> p.value.timestamp == Some(now)
    ensures apiKey == PlaceholderKey ==> (p.Some? <==> mmsi in MockPositions)
    ensures apiKey != PlaceholderKey ==> (p.Some? <==> live(mmsi).Some?)
    ensures apiKey != PlaceholderKey && live(mmsi).Some? ==> p == Some(live(mmsi).value.(mmsi := mmsi))
  {
    if apiKey == PlaceholderKey then
      if mmsi in MockPositions then
        var fix := MockPositions[mmsi];
        Some(Position(mmsi, Some(fix.lat), Some(fix.lon), Some(fix.course), Some(MockSpeed), Some(now)))
      else None
    else
      match live(mmsi)
      case None => None
      case Some(v) => Some(v.(mmsi := mmsi))
  }

  /** With the placeholder key, a known MMSI reports its table latitude,
      longitude and course at 18.5 knots, and the service is never asked. */
  lemma MockPositionOfKnown(mmsi: string, now: string, live: LiveLookup)
    requires mmsi in MockPositions
    ensures var p := GetVesselPosition(PlaceholderKey, mmsi, now, live);
            && p.Some?
            && p.value.lat == Some(MockPositions[mmsi].lat)
            && p.value.lon == Some(MockPositions[mmsi].lon)
            && p.value.course == Some(MockPositions[mmsi].course)
            && p.value.speed == Some(MockSpeed)
            && p.value.timestamp == Some(now)
  {
  }

  /** With the placeholder key, any other MMSI has no position, whatever the
      live service would say. */
  lemma MockPositionOfUnknown(mmsi: string, now: string, live: LiveLookup)
    requires mmsi !in MockPositions
    ensures GetVesselPosition(PlaceholderKey, mmsi, now, live) == None
  {
  }

  /** The mock table has six entries, none at latitude or longitude zero. */
  lemma MockTableShape()
    ensures |MockPositions| == 6
    ensures forall m :: m in MockPositions ==> MockPositions[m].lat != 0.0 && MockPositions[m].lon != 0.0
  {
    assert MockPositions.Keys == {"368123000", "368456000", "368789000", "368234000", "368567000", "368890000"};
  }
}

=== FILE: regions.dfy ===
/** The strategic-region classifier of the visual tracker
    (`is_heading_to_strategic_region`): a vessel is heading toward the first
    region, in table order, whose centre lies within 45 degrees of its
    course; otherwise it is on "Other Operations".

    The great-circle bearing itself (atan2 of sines and cosines, converted to
    degrees) is floating-point trigonometry and is a parameter of the model,
    `raw`; the normalisation `(bearing + 360) % 360` that the tracker applies
    to it is modelled exactly. */
module Regions {
  import opened Wrappers

  datatype GeoPoint = GeoPoint(lat: real, lon: real)

  datatype Bounds = Bounds(north: real, south: real, east: real, west: real)

  /** One entry of `strategic_regions`: its dictionary key, display name,
      bounding box and map colour. */
  datatype Region = Region(key: string, name: string, bounds: Bounds, color: string)

  const MiddleEast := "Middle East"
  const IndianOcean := "Indian Ocean"
  const EastAsia := "East Asia/Western Pacific"
  const OtherOperations := "Other Operations"

  /** The heading tolerance, in degrees; the test against it is inclusive. */
  const Tolerance: real := 45.0

  /** `strategic_regions`, in its insertion (and so iteration) order. */
  const StrategicRegions: seq<Region> := [
    Region("middle_east", MiddleEast, Bounds(40.0, 12.0, 65.0, 25.0), "red"),
    Region("indian_ocean", IndianOcean, Bounds(25.0, -40.0, 100.0, 40.0), "blue"),
    Region("east_asia", EastAsia, Bounds(50.0, 0.0, 150.0, 100.0), "green")
  ]

  /** The centre of a bounding box: equally far from north and south, and
      from east and west. */
  function Center(b: Bounds): (c: GeoPoint)
    ensures c.lat - b.south == b.north - c.lat
    ensures c.lon - b.west == b.east - c.lon
    ensures b.south <= b.north ==> b.south <= c.lat <= b.north
    ensures b.west <= b.east ==> b.west <= c.lon <= b.east
  {
    GeoPoint((b.north + b.south) / 2.0, (b.east + b.west) / 2.0)
  }

  /** The centres of the three strategic regions. */
  lemma StrategicCenters()
    ensures Center(StrategicRegions[0].bounds) == GeoPoint(26.0, 45.0)
    ensures Center(StrategicRegions[1].bounds) == GeoPoint(-7.5, 70.0)
    ensures Center(StrategicRegions[2].bounds) == GeoPoint(25.0, 125.0)
  {
  }

  /** `math.degrees(math.atan2(...))` for the bearing from (lat1, lon1) to
      (lat2, lon2), all in degrees; not normalised. */
  type RawBearing = (real, real, real, real) -> real

  /** Python's float `x % 360`: the result has the sign of the divisor, so
      it always lies in [0, 360), and it differs from `x` by whole turns. */
  function Mod360(x: real): (r: real)
    ensures 0.0 <= r < 360.0
    ensures ((x - r) / 360.0).Floor as real == (x - r) / 360.0
  {
    x - 360.0 * (x / 360.0).Floor as real
  }

  /** The normalised bearing `(bearing + 360) % 360` from `from` to `to`. */
  function Bearing(raw: RawBearing, from: GeoPoint, to: GeoPoint): (b: real)
    ensures 0.0 <= b < 360.0
  {
    Mod360(raw(from.lat, from.lon, to.lat, to.lon) + 360.0)
  }

  /** atan2 yields angles in [-180, 180]; the normalisation maps the
      non-negative ones to themselves and adds a full turn to the negative
      ones. */
  lemma BearingNormalisation(raw: RawBearing, from: GeoPoint, to: GeoPoint)
    requires -180.0 <= raw(from.lat, from.lon, to.lat, to.lon) <= 180.0
    ensures var a := raw(from.lat, from.lon, to.lat, to.lon);
            Bearing(raw, from, to) == if a < 0.0 then a + 360.0 else a
  {
    var a := raw(from.lat, from.lon, to.lat, to.lon);
    var x := a + 360.0;
    if a < 0.0 {
      assert (x / 360.0).Floor == 0;
    } else if a < 180.0 || a == 180.0 {
      assert 1.0 <= x / 360.0 < 2.0;
      assert (x / 360.0).Floor == 1;
    }
  }

  /** `abs(x)`. */
  function Abs(x: real): (r: real)
    ensures 0.0 <= r && (r == x || r == -x)
  {
    if x < 0.0 then -x else x
  }

  /** `min(|course - bearing|, 360 - |course - bearing|)`: the shorter way
      round the compass. */
  function CircularDiff(course: real, bearing: real): (d: real)
    ensures d <= Abs(course - bearing) && d <= 360.0 - Abs(course - bearing)
    ensures d == Abs(course - bearing) || d == 360.0 - Abs(course - bearing)
    ensures d <= 180.0
    ensures -360.0 <= course - bearing <= 360.0 ==> 0.0 <= d
  {
    var diff := Abs(course - bearing);
    if diff <= 360.0 - diff then diff else 360.0 - diff
  }

  /** The circular difference does not depend on which angle is the course. */
  lemma CircularDiffSymmetric(a: real, b: real)
    ensures CircularDiff(a, b) == CircularDiff(b, a)
  {
  }

  /** The vessel at `pos` sailing `course` is heading toward `region`. */
  predicate HeadingToward(raw: RawBearing, pos: GeoPoint, course: real, region: Region)
    ensures var diff := Abs(course - Bearing(raw, pos, Center(region.bounds)));
            HeadingToward(raw, pos, course, region) <==> diff <= Tolerance || 360.0 - diff <= Tolerance
  {
    CircularDiff(course, Bearing(raw, pos, Center(region.bounds))) <= Tolerance
  }

  /** The index of the first region, in list order, the vessel heads toward. */
  function FirstMatch(raw: RawBearing, pos: GeoPoint, course: real, regions: seq<Region>): (r: Option<nat>)
    ensures r.Some? ==> r.value < |regions| && HeadingToward(raw, pos, course, regions[r.value])
    ensures r.Some? ==> forall j :: 0 <= j < r.value ==> !HeadingToward(raw, pos, course, regions[j])
    ensures r.None? <==> forall j :: 0 <= j < |regions| ==> !HeadingToward(raw, pos, course, regions[j])
  {
    if regions == [] then None
    else if HeadingToward(raw, pos, course, regions[0]) then Some(0)
    else match FirstMatch(raw, pos, course, regions[1..])
      case None => None
      case Some(i) => Some(i + 1)
  }

  /** The scan of `is_heading_to_strategic_region` over an arbitrary ordered
      list of regions. */
  function Classify(raw: RawBearing, pos: GeoPoint, course: real, regions: seq<Region>): (name: string)
    ensures name == OtherOperations || exists i :: 0 <= i < |regions| && regions[i].name == name
  {
    match FirstMatch(raw, pos, course, regions)
    case Some(i) => regions[i].name
    case None => OtherOperations
  }

  /** `is_heading_to_strategic_region(lat, lon, course)` over the fixed table. */
  function HeadingRegion(raw: RawBearing, lat: real, lon: real, course: real): (name: string)
    ensures name in {MiddleEast, IndianOcean, EastAsia, OtherOperations}
  {
    Classify(raw, GeoPoint(lat, lon), course, StrategicRegions)
  }

  /** First match wins: a region the vessel heads toward, with none before it
      in the list, names the result whatever follows it. */
  lemma ClassifyFirstMatch(raw: RawBearing, pos: GeoPoint, course: real, regions: seq<Region>, i: nat)
    requires i < |regions| && HeadingToward(raw, pos, course, regions[i])
    requires forall j :: 0 <= j < i ==> !HeadingToward(raw, pos, course, regions[j])
    ensures Classify(raw, pos, course, regions) == regions[i].name
  {
    var m := FirstMatch(raw, pos, course, regions);
    assert m.Some?;
    assert m.value == i;
  }

  /** Ties go to list order: when the first two regions both qualify, the
      first is reported. */
  lemma ClassifyTieGoesToFirst(raw: RawBearing, pos: GeoPoint, course: real, regions: seq<Region>)
    requires |regions| >= 2
    requires HeadingToward(raw, pos, course, regions[0]) && HeadingToward(raw, pos, course, regions[1])
    ensures Classify(raw, pos, course, regions) == regions[0].name
  {
    ClassifyFirstMatch(raw, pos, course, regions, 0);
  }

  /** Over the fixed table, "Other Operations" is reported exactly when the
      vessel heads toward none of the three regions. */
  lemma HeadingRegionOtherIff(raw: RawBearing, lat: real, lon: real, course: real)
    ensures HeadingRegion(raw, lat, lon, course) == OtherOperations
        <==> forall j :: 0 <= j < |StrategicRegions| ==> !HeadingToward(raw, GeoPoint(lat, lon), course, StrategicRegions[j])
  {
    var m := FirstMatch(raw, GeoPoint(lat, lon), course, StrategicRegions);
    if m.Some? {
      assert StrategicRegions[m.value].name != OtherOperations;
    }
  }

  /** Over the fixed table, each region name is reported exactly when that
      region is the first one, in the order middle_east, indian_ocean,
      east_asia, the vessel heads toward. */
  lemma HeadingRegionNames(raw: RawBearing, lat: real, lon: real, course: real)
    ensures var p := GeoPoint(lat, lon);
            var r := HeadingRegion(raw, lat, lon, course);
            && (r == MiddleEast <==> HeadingToward(raw, p, course, StrategicRegions[0]))
            && (r == IndianOcean <==>
                  !HeadingToward(raw, p, course, StrategicRegions[0])
                  && HeadingToward(raw, p, course, StrategicRegions[1]))
            && (r == EastAsia <==>
                  !HeadingToward(raw, p, course, StrategicRegions[0])
                  && !HeadingToward(raw, p, course, StrategicRegions[1])
                  && HeadingToward(raw, p, course, StrategicRegions[2]))
  {
    var p := GeoPoint(lat, lon);
    var m := FirstMatch(raw, p, course, StrategicRegions);
    if m.Some? {
      assert m.value == 0 || m.value == 1 || m.value == 2;
    }
  }

  /** The tolerance test is inclusive: a bearing exactly 45 degrees off the
      course, either way round the compass, still counts. */
  lemma ToleranceInclusive(raw: RawBearing, pos: GeoPoint, course: real, region: Region)
    requires var b := Bearing(raw, pos, Center(region.bounds));
             course == b + 45.0 || course == b - 45.0 || course == b + 315.0 || course == b - 315.0
    ensures HeadingToward(raw, pos, course, region)
  {
  }
}

=== FILE: sequences.dfy ===
/** Order-preserving filtering, the shape shared by every list
    comprehension and every "append if it matches" loop of the trackers. */
module Sequences {

  /** The elements of `s` that satisfy `p`, in their original order. */
  function Filter<T>(s: seq<T>, p: T -> bool): (r: seq<T>)
    ensures |r| <= |s|
    ensures forall x :: x in r ==> x in s && p(x)
    ensures forall x :: x in s && p(x) ==> x in r
  {
    if s == [] then []
    else (if p(s[0]) then [s[0]] else []) + Filter(s[1..], p)
  }

  /** `r` can be obtained from `s` by deleting elements: the relative order
      of what is kept is the order of `s`. */
  predicate Subsequence<T(==)>(r: seq<T>, s: seq<T>)
  {
    if r == [] then true
    else if s == [] then false
    else (r[0] == s[0] && Subsequence(r[1..], s[1..])) || Subsequence(r, s[1..])
  }

  /** Filtering distributes over concatenation: what is kept from the first
      part comes before what is kept from the second. */
  lemma {:induction false} FilterAppend<T>(a: seq<T>, b: seq<T>, p: T -> bool)
    ensures Filter(a + b, p) == Filter(a, p) + Filter(b, p)
  {
    if a == [] {
      assert a + b == b;
    } else {
      assert (a + b)[0] == a[0];
      assert (a + b)[1..] == a[1..] + b;
      FilterAppend(a[1..], b, p);
    }
  }

  /** The kept elements appear in the input order. */
  lemma {:induction false} FilterIsSubsequence<T>(s: seq<T>, p: T -> bool)
    ensures Subsequence(Filter(s, p), s)
  {
    if s != [] {
      FilterIsSubsequence(s[1..], p);
      var rest := Filter(s[1..], p);
      if p(s[0]) {
        assert Filter(s, p) == [s[0]] + rest;
        assert ([s[0]] + rest)[1..] == rest;
      } else {
        assert Filter(s, p) == rest;
        SubsequenceDropHead(rest, s);
      }
    }
  }

  lemma {:induction false} SubsequenceDropHead<T>(r: seq<T>, s: seq<T>)
    requires s != [] && Subsequence(r, s[1..])
    ensures Subsequence(r, s)
  {
  }

  /** Filtering a filtered sequence again changes nothing. */
  lemma {:induction false} FilterIdempotent<T>(s: seq<T>, p: T -> bool)
    ensures Filter(Filter(s, p), p) == Filter(s, p)
  {
    if s != [] {
      FilterIdempotent(s[1..], p);
      var rest := Filter(s[1..], p);
      if p(s[0]) {
        var r := [s[0]] + rest;
        assert Filter(s, p) == r;
        assert r[0] == s[0] && r[1..] == rest;
        assert Filter(r, p) == [s[0]] + Filter(rest, p);
      } else {
        assert Filter(s, p) == rest;
      }
    }
  }

  /** When every element qualifies, the filter returns its input unchanged. */
  lemma {:induction false} FilterKeepsAll<T>(s: seq<T>, p: T -> bool)
    requires forall i :: 0 <= i < |s| ==> p(s[i])
    ensures Filter(s, p) == s
  {
    if s != [] {
      FilterKeepsAll(s[1..], p);
      assert [s[0]] + s[1..] == s;
    }
  }

  /** The filter is empty exactly when no element qualifies. */
  lemma FilterEmptyIff<T>(s: seq<T>, p: T -> bool)
    ensures Filter(s, p) == [] <==> forall i :: 0 <= i < |s| ==> !p(s[i])
  {
    if Filter(s, p) == [] {
      forall i | 0 <= i < |s| ensures !p(s[i]) {
        assert s[i] in s;
      }
    } else {
      var x := Filter(s, p)[0];
      assert x in Filter(s, p);
      var i :| 0 <= i < |s| && s[i] == x;
    }
  }
}

=== FILE: text.dfy ===
/** The string operations the trackers rely on, restricted to what the
    model needs: ASCII lower-casing (`str.lower`), substring search (Python's
    `sub in s`), prefix tests (`str.startswith`), slicing (`s[:n]`) and the
    decimal rendering of a count inside an f-string. */
module Text {

  /** ASCII lower-casing of one character; every other character is kept. */
  function LowerChar(c: char): (d: char)
    ensures !('A' <= d <= 'Z')
    ensures 'a' <= d <= 'z' <==> ('a' <= c <= 'z' || 'A' <= c <= 'Z')
    ensures !('A' <= c <= 'Z') ==> d == c
    ensures 'A' <= c <= 'Z' ==> d as int == c as int + 32
  {
    if 'A' <= c <= 'Z' then (c as int + 32) as char else c
  }

  /** `s.lower()` restricted to ASCII letters. */
  function Lower(s: string): (r: string)
    ensures |r| == |s|
    ensures forall i :: 0 <= i < |s| ==> r[i] == LowerChar(s[i])
  {
    seq(|s|, i requires 0 <= i < |s| => LowerChar(s[i]))
  }

  /** Lower-casing twice is lower-casing once. */
  lemma LowerIdempotent(s: string)
    ensures Lower(Lower(s)) == Lower(s)
  {
  }

  /** Lower-casing commutes with slicing. */
  lemma LowerSlice(s: string, i: nat, j: nat)
    requires i <= j <= |s|
    ensures Lower(s)[i..j] == Lower(s[i..j])
  {
  }

  /** Python's `s.startswith(prefix)`. */
  predicate StartsWith(s: string, prefix: string)
  {
    |prefix| <= |s| && s[..|prefix|] == prefix
  }

  /** Python's `sub in s`, searching from the left. */
  predicate Contains(s: string, sub: string)
    decreases |s|
  {
    StartsWith(s, sub) || (s != [] && Contains(s[1..], sub))
  }

  /** `sub` occurs in `s` starting at offset `i`. */
  predicate OccursAt(s: string, sub: string, i: nat)
  {
    i + |sub| <= |s| && s[i..i + |sub|] == sub
  }

  /** `sub in s` holds exactly when `sub` occurs at some offset of `s`. */
  lemma {:induction false} ContainsIffOccurs(s: string, sub: string)
    ensures Contains(s, sub) <==> exists i: nat :: OccursAt(s, sub, i)
    decreases |s|
  {
    if Contains(s, sub) {
      if StartsWith(s, sub) {
        assert OccursAt(s, sub, 0);
      } else {
        ContainsIffOccurs(s[1..], sub);
        var i: nat :| OccursAt(s[1..], sub, i);
        assert s[1..][i..i + |sub|] == s[i + 1..i + 1 + |sub|];
        assert OccursAt(s, sub, i + 1);
      }
    }
    if exists i: nat :: OccursAt(s, sub, i) {
      var i: nat :| OccursAt(s, sub, i);
      OccursAtContains(s, sub, i);
    }
  }

  /** An occurrence at a known offset is enough for `sub in s`. */
  lemma {:induction false} OccursAtContains(s: string, sub: string, i: nat)
    requires OccursAt(s, sub, i)
    ensures Contains(s, sub)
    decreases i
  {
    if i > 0 {
      assert s[1..][i - 1..i - 1 + |sub|] == sub;
      OccursAtContains(s[1..], sub, i - 1);
    } else {
      assert s[..|sub|] == sub;
    }
  }

  /** The empty string contains only the empty string. */
  lemma EmptyContainsNothing(sub: string)
    requires sub != []
    ensures !Contains([], sub)
  {
  }

  /** Python's `any(k in s for k in keywords)`. */
  predicate ContainsAny(s: string, keywords: seq<string>)
  {
    exists k :: k in keywords && Contains(s, k)
  }

  /** Some keyword contains-matches exactly when some keyword occurs at some
      position. */
  lemma ContainsAnyIffOccurs(s: string, keywords: seq<string>)
    ensures ContainsAny(s, keywords) <==> exists k, i: nat :: k in keywords && OccursAt(s, k, i)
  {
    forall k | k in keywords
      ensures Contains(s, k) <==> exists i: nat :: OccursAt(s, k, i)
    {
      ContainsIffOccurs(s, k);
    }
  }

  /** Python's slice `s[:n]` for a non-negative `n`. */
  function Take<T>(s: seq<T>, n: nat): (r: seq<T>)
    ensures |r| <= n && |r| <= |s|
    ensures |s| <= n ==> r == s
    ensures forall i :: 0 <= i < |r| ==> r[i] == s[i]
    ensures n <= |s| ==> |r| == n
  {
    if |s| <= n then s else s[..n]
  }

  /** The decimal digit character of `d`. */
  function DigitChar(d: nat): (c: char)
    requires d < 10
    ensures '0' <= c <= '9'
    ensures (c as int) - ('0' as int) == d
  {
    (('0' as int) + d) as char
  }

  /** The decimal rendering of `n`, as `f"{n}"` prints it. */
  function NatToString(n: nat): (s: string)
    ensures |s| >= 1
    ensures forall i :: 0 <= i < |s| ==> '0' <= s[i] <= '9'
    ensures |s| > 1 ==> s[0] != '0'
  {
    if n < 10 then [DigitChar(n)] else NatToString(n / 10) + [DigitChar(n % 10)]
  }

  /** The value of a string of decimal digits. */
  function DigitsValue(s: string): nat
    requires forall i :: 0 <= i < |s| ==> '0' <= s[i] <= '9'
  {
    if s == [] then 0
    else DigitsValue(s[..|s| - 1]) * 10 + ((s[|s| - 1] as int) - ('0' as int))
  }

  /** Reading back the rendered count gives the count: the rendering loses nothing. */
  lemma {:induction false} NatToStringRoundTrip(n: nat)
    ensures DigitsValue(NatToString(n)) == n
  {
    if n >= 10 {
      NatToStringRoundTrip(n / 10);
      var s := NatToString(n);
      assert s[..|s| - 1] == NatToString(n / 10);
    }
  }
}

=== FILE: wrappers.dfy ===
/** The "value or nothing" wrapper used where the Python code returns `None`
    or reads a dictionary key that may be absent. */
module Wrappers {

  datatype Option<+T> = None | Some(value: T) {

    /** The wrapped value, or `default` when there is none. */
    function GetOr(default: T): T {
      match this
      case Some(v) => v
      case None => default
    }
  }
}
